=== FILE: README.md ===
# Project Charon rules layer, modelled in Dafny

This project models the rules layer of Project Charon, a management game set in the
Greek underworld. The model covers:

- **The daily simulation state machine of `GameStateManager`.** A phase clock runs
  Dawn → Day → Evening. Its day counter moves on each Evening → Dawn roll-over, and
  the game-end branch runs once the day passes 30.
- **The ledger.** Resources cannot be overdrawn. There is a table of thirteen
  Olympian relationships, and a string → bool flag store with prefix and batch
  queries.
- **Save-data snapshot and restore.**
- **The shade-sorting pipeline.**
  - A `Shade` is classified at construction into Elysium, Asphodel or Tartarus from
    its two life actions.
  - `ShadeManager` keeps a pool of spawned shades and a list of hired ones.
  - `ShadeClickHandler.AssignAfterlife` records the player's choice and moves the
    shade from the pool onto the `Docks` queue.
  - Once a day, `Docks` dequeues and judges at most `dailyProcessingLimit` shades,
    in FIFO order.

State that the C# updates in place lives in Dafny classes whose methods say what the
new state is: `GameStateManager`, `Docks`, `ShadeManager`, `ShadeClickHandler`, and
the mutable part of `Shade`. `List<T>` and `Queue<T>` fields are `seq` fields, and
dictionaries are `map` fields. Each method is specified against pure functions
(`PhaseClock.Step`, `Ledger.TryModify`, `Buildings.Quota`, `Sequences.OnlyIn`,
`Sequences.Tally`, …). The lemmas about those functions carry the properties that
hold across several calls.

Shades are compared by reference in the source (`Find(s => s == shade)`,
`List.Remove`, `Contains`). `Shade` is therefore a class, and Dafny's equality on it
is the same reference equality. Unity game objects are stood for by an `ObjectId`
handle, with `Option` standing for `null`.

Notifications are kept as ghost logs: `GameStateManager.events`, and
`Docks.processed` for `OnShadeProcessed`. Each entry is a notification raised in
that order. `GameEndTriggered` marks a call of the empty `TriggerGameEnd`.

Files, one module each:

- `optional.dfy`: `Optional`, the `Option` type.
- `sequences.dfy`: `Sequences`, the list operations and their lemmas.
- `phase_clock.dfy`: `PhaseClock`.
- `ledger.dfy`: `Ledger`.
- `game_state.dfy`: `GameState`, the `GameStateManager` class, `GameSaveData` and
  `Event`.
- `shades.dfy`: `Shades`.
- `docks.dfy`: `Buildings`.
- `shade_manager.dfy`: `ShadeManagement`.
- `click_handler.dfy`: `ClickHandling`.

Two behaviours of the code are worth stating plainly:

- **Game end.** `AdvanceDay` runs the game-end branch on every roll-over whose new
  day exceeds `MAX_DAYS`, not only on the first (`PhaseClock.NewGameEnding`: once by
  call 93, twice by call 96).
- **Drain result.** `ProcessShades` is `void` in the source
  (Assets/Scripts/Entities/Buildings/Docks.cs:33-45) and only logs the count. The
  model also returns the count its loop computes, and nothing else depends on it.

## Model

| member | source | states |
|---|---|---|
| `PhaseClock.Step` | Assets/Scripts/Core/GameState/GameStateManager.cs:86-112 | Dawn→Day, Day→Evening, Evening→Dawn; the day changes only on the Evening step and then by exactly +1 |
| `PhaseClock.ThreeStepsAdvanceOneDay` | Assets/Scripts/Core/GameState/GameStateManager.cs:86-112 | three consecutive phase advances return to the starting phase with the day one higher; one or two advances never return to the start |
| `PhaseClock.FullDays` | Assets/Scripts/Core/GameState/GameStateManager.cs:86-117 | k full days from Dawn of day d end at Dawn of day d+k, and the game-end branch runs once for each new day past `MAX_DAYS`, not only the first |
| `PhaseClock.NewGameEnding` | Assets/Scripts/Core/GameState/GameStateManager.cs:39 | from day 0 at Dawn: 92 advances never end the game (none of the first 90, nor the 91st and 92nd), the 93rd (Evening of day 30 → day 31) is the first that does, and 96 advances have run it twice |
| `PhaseClock.RunSplit` | Assets/Scripts/Core/GameState/GameStateManager.cs:86-101 | m+n advances are m advances followed by n |
| `PhaseClock.SignalsSplit` | Assets/Scripts/Core/GameState/GameStateManager.cs:86-117 | the game-end signals of m+n advances are those of the first m plus those of the n that follow |
| `GameState.GameStateManager.AdvancePhase` | Assets/Scripts/Core/GameState/GameStateManager.cs:86-101 | the clock moves by `Step`, the stores are untouched, the notifications are DayChanged/GameEnd/PhaseChanged(Dawn) on roll-over and PhaseChanged(next) otherwise, and GameEndTriggered is raised iff `EndsGame` holds for the old clock |
| `GameState.GameStateManager.SetPhase` | Assets/Scripts/Core/GameState/GameStateManager.cs:103-107 | sets the phase, changes nothing else, raises PhaseChanged(newPhase) |
| `GameState.GameStateManager.AdvanceDay` | Assets/Scripts/Core/GameState/GameStateManager.cs:109-118 | adds one to the day, raises DayChanged(new day), and runs the game-end branch exactly when the new day exceeds 30 |
| `GameState.GameStateManager.constructor` | Assets/Scripts/Core/GameState/GameStateManager.cs:52-82 | initialisation: day 0 at Dawn, all six resources at 0 (hence non-negative), exactly the 13 Olympians at 0, no flags |
| `Ledger.InitialResources` | Assets/Scripts/Core/GameState/GameStateManager.cs:59-64 | every resource kind is present with value 0 |
| `Ledger.InitialRelationships` | Assets/Scripts/Core/GameState/GameStateManager.cs:69-81 | the table holds exactly the listed Olympians, each at 0 |
| `Ledger.TryModify` | Assets/Scripts/Core/GameState/GameStateManager.cs:133-144 | rejects exactly when an expense would drive the resource below zero; otherwise adds the amount to that resource only, keeps the key set and preserves non-negativity |
| `GameState.GameStateManager.ModifyResource` | Assets/Scripts/Core/GameState/GameStateManager.cs:133-144 | returns false and changes nothing (no notification) on an overdraft, otherwise true with the resource updated and ResourceChanged(type, new value) raised; non-negativity is preserved; needs the key present, as the source throws otherwise |
| `Ledger.ApplyAllNonNegative` | Assets/Scripts/Core/GameState/GameStateManager.cs:133-144 | for any sequence of modifications from a non-negative store, no resource ever goes negative and no kind appears or disappears |
| `Ledger.ObolsScenario` | Assets/Scripts/Core/GameState/GameStateManager.cs:136-141 | from all zeros: −5 Obols is refused, +10 gives 10, then −5 gives 5 |
| `GameState.GameStateManager.GetResource` | Assets/Scripts/Core/GameState/GameStateManager.cs:128-131 | lookup of a present key; never negative while the store is non-negative |
| `Ledger.Relationship` | Assets/Scripts/Core/GameState/GameStateManager.cs:148-151 | `GetRelationship`: the stored value for a known name, 0 for an unknown one |
| `Ledger.AdjustRelationship` | Assets/Scripts/Core/GameState/GameStateManager.cs:153-159 | adds to a known name only; unknown names are ignored; the name set never changes; other entries untouched |
| `GameState.GameStateManager.ModifyRelationship` | Assets/Scripts/Core/GameState/GameStateManager.cs:153-159 | updates the table by `AdjustRelationship`, changes nothing else and raises no notification |
| `Ledger.FlagValue` | Assets/Scripts/Core/GameState/GameStateManager.cs:169-177 | `GetFlag`: true only for a present key whose value is true; absent keys read false (`HasFlag` is key presence) |
| `GameState.GameStateManager.SetFlag` | Assets/Scripts/Core/GameState/GameStateManager.cs:163-167 | stores the value; afterwards `GetFlag(n) == v` and `HasFlag(n)`; raises FlagChanged(n, v) |
| `GameState.GameStateManager.RemoveFlag` | Assets/Scripts/Core/GameState/GameStateManager.cs:179-186 | removes the key and only it; afterwards `HasFlag(n)` is false; raises FlagChanged(n, false) only if the key existed, else is a no-op |
| `GameState.GameStateManager.SetFlags` | Assets/Scripts/Core/GameState/GameStateManager.cs:189-196 | overwrites exactly the given keys (`old + batch`) and raises one MultipleFlagsChanged, not one notification per key |
| `Ledger.WithPrefix` | Assets/Scripts/Core/GameState/GameStateManager.cs:198-203 | `GetFlagsWithPrefix`: exactly the stored entries whose key starts with the prefix, with their values |
| `Ledger.WithoutPrefix` | Assets/Scripts/Core/GameState/GameStateManager.cs:215-225 | the entries whose key does not start with the prefix, unchanged |
| `Ledger.PrefixSplit` | Assets/Scripts/Core/GameState/GameStateManager.cs:198-225 | the two halves are disjoint and together give back the whole flag store |
| `GameState.GameStateManager.RemoveAllFlagsWithPrefix` | Assets/Scripts/Core/GameState/GameStateManager.cs:215-225 | afterwards no key with the prefix remains and all other entries are untouched; one FlagChanged(k, false) is raised per removed key, each exactly once |
| `GameState.GameStateManager.RemoveFlags` | Assets/Scripts/Core/GameState/GameStateManager.cs:219-224 | `RemoveFlag` on each collected key: exactly those keys leave the store, each raises FlagChanged(k, false) exactly once, nothing else changes |
| `Ledger.AllSet` | Assets/Scripts/Core/GameState/GameStateManager.cs:205-208 | `AreAllFlagsSet` holds iff `GetFlag` is true for every name |
| `Ledger.AnySet` | Assets/Scripts/Core/GameState/GameStateManager.cs:210-213 | `IsAnyFlagSet` holds iff `GetFlag` is true for some name |
| `Ledger.BatchThenPrefixExample` | Assets/Scripts/Core/GameState/GameStateManager.cs:189-203 | after setting {"a": true, "b": false} on an empty store, the prefix "a" yields exactly {"a": true} |
| `GameState.GameStateManager.LoadSaveData` | Assets/Scripts/Core/GameState/GameStateManager.cs:241-260 | afterwards `GetSaveData()` is exactly the loaded snapshot, so loading what `GetSaveData` returned restores day, phase, resources, relationships and flags; notifications: day, phase, one per stored resource and one per stored flag, none for relationships |
| `GameState.SnapshotIsolation` | Assets/Scripts/Core/GameState/GameStateManager.cs:229-260 | `GetSaveData` returns day, phase and value copies of the three stores: a snapshot taken on a fresh manager still shows 0 Obols and no flags after a later +10 Obols and a flag set, and `LoadSaveData` of it gives back exactly that snapshot |
| `GameState.GameStateManager.NotifyResources` | Assets/Scripts/Core/GameState/GameStateManager.cs:252-255 | one ResourceChanged per restored resource, each key exactly once, state unchanged |
| `GameState.GameStateManager.NotifyFlags` | Assets/Scripts/Core/GameState/GameStateManager.cs:256-259 | one FlagChanged per restored flag, each key exactly once, state unchanged |
| `Shades.GoodCount` | Assets/Scripts/Entities/Shades/Shade.cs:33-35 | the counter is 0 iff neither action is in `GoodActions` and 2 iff both are |
| `Shades.Classify` | Assets/Scripts/Entities/Shades/Shade.cs:33-48 | Elysium iff both actions are good, Tartarus iff neither is, Asphodel iff exactly one is; always one of the three names |
| `Shades.ClassifySymmetric` | Assets/Scripts/Entities/Shades/Shade.cs:34-35 | swapping the two actions gives the same afterlife |
| `Shades.BadActionsAreNotGood` | Scripts/Scripts/Entities/Shades/ShadeSpawner.cs:40-55 | no `BadActions` entry is in `GoodActions`, so it counts as not good |
| `Shades.EveryOptionReachable` | Assets/Scripts/Entities/Shades/ShadeClickHandler.cs:97 | each menu option is the correct afterlife of some pair of spawnable actions |
| `Shades.Shade.constructor` | Assets/Scripts/Entities/Shades/Shade.cs:21-53 | stores name, origin, occupation, summary, both actions and level as given, derives `CorrectAfterlife` by `Classify`, leaves the assigned afterlife and game object unset |
| `Buildings.Quota` | Assets/Scripts/Entities/Buildings/Docks.cs:35-43 | one drain takes min(queue length, limit) shades, and none when the limit is not positive |
| `Buildings.BatchesArePrefix` | Assets/Scripts/Entities/Buildings/Docks.cs:37-42 | over successive days with no new arrivals, the shades processed are exactly the queue's prefix of length min(length, days × limit), in enqueue order; with a limit that is not positive nothing is ever processed |
| `Buildings.BatchesWithinBudget` | Assets/Scripts/Entities/Buildings/Docks.cs:37-42 | with a positive limit, successive drains take the queue's prefix as long as the summed daily limits, in enqueue order |
| `Buildings.SevenShadesTwoDays` | Assets/Scripts/Entities/Buildings/Docks.cs:12 | with the default limit 5, a queue of 7 yields its first five on day one, keeps 2, and is emptied by day two |
| `Buildings.Docks.constructor` | Assets/Scripts/Entities/Buildings/Docks.cs:8-12 | empty queue, nothing processed, the given daily limit |
| `Buildings.Docks.AssignShadeToDocks` | Assets/Scripts/Entities/Buildings/Docks.cs:19-30 | appends a non-null shade at the tail; a null shade leaves the queue unchanged |
| `Buildings.Docks.ProcessShades` | Assets/Scripts/Entities/Buildings/Docks.cs:33-45 | removes exactly `Quota` shades from the head, leaves the rest in order, and raises one notification per processed shade in dequeue order |
| `Buildings.Docks.ProcessShade` | Assets/Scripts/Entities/Buildings/Docks.cs:48-69 | verdict is correct iff the assigned afterlife equals the correct one; the notification is raised whatever the verdict |
| `Buildings.Docks.GetQueueCount` | Assets/Scripts/Entities/Buildings/Docks.cs:72-75 | the number of shades still queued |
| `Sequences.RemoveFirst` | Scripts/Scripts/Entities/Shades/ShadeManager.cs:51 | `List.Remove`: a missing element changes nothing, a present one shortens the list by one |
| `Sequences.RemoveFirstIndex` | Scripts/Scripts/Entities/Shades/ShadeManager.cs:194 | the occurrence `List.Remove` takes out is the first; everything else stays in order |
| `Sequences.RemoveFirstAt` | Scripts/Scripts/Entities/Shades/ShadeManager.cs:43-51 | removing by value the element found first at index i removes exactly index i |
| `ShadeManagement.FindByObject` | Scripts/Scripts/Entities/Shades/ShadeManager.cs:43 | `Find`: the first shade whose game object matches, or none when no shade matches |
| `ShadeManagement.ShadeManager.constructor` | Scripts/Scripts/Entities/Shades/ShadeManager.cs:15-16 | both lists start empty |
| `ShadeManagement.ShadeManager.Hired` | Scripts/Scripts/Entities/Shades/ShadeManager.cs:40-67 | the first matching spawned shade is appended to the hired list and removed from its index in the pool; with no match both lists are unchanged; the total size is preserved |
| `Sequences.NotInSnoc` | Scripts/Scripts/Entities/Shades/ShadeManager.cs:179-189 | building `shadesToRemove` one shade at a time |
| `Sequences.RemoveEachSnoc` | Scripts/Scripts/Entities/Shades/ShadeManager.cs:192-195 | the removal loop one step at a time |
| `Sequences.RemoveNotInLeavesOnlyIn` | Scripts/Scripts/Entities/Shades/ShadeManager.cs:177-195 | removing, first occurrence by first occurrence, every unhired shade leaves exactly the hired ones in their original order, duplicates included |
| `ShadeManagement.ShadeManager.SpawnNewShades` | Scripts/Scripts/Entities/Shades/ShadeManager.cs:167-205 | with no spawner nothing changes; otherwise the pool becomes the old pool filtered to hired shades followed by the new batch in order; the hired list is untouched |
| `ShadeManagement.ShadeManager.CollectUnhired` | Scripts/Scripts/Entities/Shades/ShadeManager.cs:177-189 | `shadesToRemove` is exactly the spawned shades not in the hired list, in pool order, duplicates included |
| `ShadeManagement.ShadeManager.RemoveShades` | Scripts/Scripts/Entities/Shades/ShadeManager.cs:192-195 | the pool after `List.Remove` of each listed shade in list order; the hired list is untouched |
| `ShadeManagement.ShadeManager.AppendShades` | Scripts/Scripts/Entities/Shades/ShadeManager.cs:198-204 | the new batch is appended to the pool in batch order; the hired list is untouched |
| `Sequences.TallyCounts` | Scripts/Scripts/Entities/Shades/ShadeManager.cs:116-131 | the counting dictionary has exactly the values that occur as keys, each mapped to its number of occurrences |
| `Sequences.TallySum` | Scripts/Scripts/Entities/Shades/ShadeManager.cs:116-131 | the counts add up to the number of counted items |
| `ShadeManagement.ShadeManager.SummaryCounts` | Scripts/Scripts/Entities/Shades/ShadeManager.cs:113-131 | for each origin (occupation), the count is the number of hired shades with it; every hired shade's origin and occupation is a key; each map's values sum to the number of hired shades |
| `ClickHandling.ShadeClickHandler.Initialize` | Assets/Scripts/Entities/Shades/ShadeClickHandler.cs:18-25 | keeps the shade, the shade manager and the docks it is given |
| `ClickHandling.ShadeClickHandler.AssignAfterlife` | Assets/Scripts/Entities/Shades/ShadeClickHandler.cs:139-178 | always records the choice on the shade; a pooled shade is removed from the pool and, when docks exist, appended to the queue, preserving pool+queue size; a shade not in the pool leaves pool and queue unchanged; hired list untouched |
| `ClickHandling.ShadeClickHandler.ChooseMenuOption` | Assets/Scripts/Entities/Shades/ShadeClickHandler.cs:97-134 | the listener of the i-th menu button assigns the i-th of the three afterlife names, so the recorded choice is always Elysium, Asphodel or Tartarus; the game object is kept; pool, queue and hired list change as in `AssignAfterlife`, including the unchanged pool for an unpooled shade and the preserved pool+queue size |

## Left out

- Unity presentation is not modelled: `OnMouseDown`, `OpenAssignAfterlifeMenu`,
  `RefreshTextBubble`, the panel instantiation and destruction in `ShowHiredShades`,
  `ToString`, text-bubble formatting, sprites, positions and colours. The three
  menu names are kept as `AFTERLIFE_OPTIONS`.
- `Destroy` calls and the `TextBubbleInstance` field are not modelled. Neither is
  Unity's overloaded `==`, under which a destroyed object compares equal to `null`.
- `ShadeSpawner.SpawnShades` is random draws plus engine object construction. A
  spawned batch is an arbitrary input to `SpawnNewShades`; `None` means no spawner
  is assigned. Only `GoodActions` and `BadActions` are kept, as constants.
- `ShadeManager.Start` is not modelled. It returns early when no spawner is assigned,
  hides the hired-shades panel, and installs the spawner's first batch as the pool,
  replacing `spawnedShades` wholesale; that batch would be an arbitrary input here.
- `ShowHiredShades` is modelled only by its counting loop (`SummaryCounts`). The
  guards on missing UI elements and on an already open panel are presentation.
- Subscriber behaviour of the C# events, the `Singleton<T>` base and `Debug.Log`
  are not modelled. Notifications appear only as the ghost event logs.
- `TriggerGameEnd` has an empty body. Only the condition under which it is called
  is modelled, as the `GameEndTriggered` event.
- `GameManager.EndOfDay` is a one-line call of `Docks.ProcessShades`, so it is not
  modelled separately.
- Persistence of `GameSaveData` to bytes is not modelled. `LoadSaveData` installs
  whatever a snapshot with non-null fields holds, so non-negativity is stated for
  `ModifyResource` only.
- C# `null` and undefined enum values cannot be represented. The source throws on a
  null string or dictionary argument (`SetFlag`, `RemoveFlag`, `GetRelationship`,
  `ModifyRelationship`, a null `SetFlags` map, the flag queries) before changing
  anything. `LoadSaveData` with a null dictionary field throws only after
  `CurrentDay`, `CurrentPhase` and any earlier store have been replaced, so the
  source's restore is not atomic. `AdvancePhase` does nothing for an undefined
  phase loaded from a snapshot.
- `GetResource` and `ModifyResource` require the key to be present: the source
  throws `KeyNotFoundException` on a missing key, and only a loaded snapshot can
  lack one.
- `AssignAfterlife` accepts any string, as the private C# method does; only its one
  caller, the menu listener modelled by `ChooseMenuOption`, restricts the choice to
  the three afterlife names.
- `AssignAfterlife` requires a non-null shade manager. The source dereferences it
  right after recording the choice and would throw.
- C# `int` overflow in `ModifyResource`, `ModifyRelationship` and `CurrentDay++` is
  not modelled: integers are unbounded.
- `Ledger.StartsWith` compares ordinally, character by character. C#
  `string.StartsWith(string)` is culture-sensitive, which can differ on some
  Unicode input.
- The order in which a dictionary is enumerated is not fixed by the source. The
  notification orders of `RemoveAllFlagsWithPrefix` and `LoadSaveData` are stated
  as "some enumeration of the keys, each exactly once".
- `Shade` fields other than the assigned afterlife and the game object are `const`.
  The C# setters are public, but no code in the rules layer writes them after
  construction.

=== FILE: click_handler.dfy ===
/** `ShadeClickHandler.AssignAfterlife`: the player's afterlife choice for
    one shade, which moves the shade from the spawned pool onto the dock
    queue. */
module ClickHandling {
  import opened Optional
  import opened Sequences
  import opened Shades
  import opened Buildings
  import opened ShadeManagement

  class ShadeClickHandler {
    const shade: Shade
    var shadeManager: ShadeManager?
    var docks: Docks?

    /** `Initialize`, keeping the collaborators the rules use. */
    constructor Initialize(shade: Shade, shadeManager: ShadeManager?, docks: Docks?)
      ensures this.shade == shade && this.shadeManager == shadeManager && this.docks == docks
    {
      this.shade := shade;
      this.shadeManager := shadeManager;
      this.docks := docks;
    }

    /** Records the choice on the shade in every case. If the shade is in
        the spawned pool it is enqueued at the docks (when there are docks)
        and taken out of the pool; otherwise pool and queue stay as they
        were. */
    method AssignAfterlife(afterlife: string)
      requires shadeManager != null
      modifies shade, shadeManager, docks
      ensures shade.assignedAfterlife == Some(afterlife)
      ensures shade.associatedObject == old(shade.associatedObject)
      ensures shadeManager.hired == old(shadeManager.hired)
      ensures shadeManager.spawned == RemoveFirst(old(shadeManager.spawned), shade)
      ensures shade !in old(shadeManager.spawned) ==> shadeManager.spawned == old(shadeManager.spawned)
      ensures docks != null ==>
                && docks.processed == old(docks.processed)
                && docks.queue == old(docks.queue) + (if shade in old(shadeManager.spawned) then [shade] else [])
      ensures docks != null && shade in old(shadeManager.spawned) ==>
                |shadeManager.spawned| + |docks.queue| == old(|shadeManager.spawned| + |docks.queue|)
    {
      shade.assignedAfterlife := Some(afterlife);
      if shade in shadeManager.spawned {
        var shadeToRemove := shade;
        if docks != null {
          docks.AssignShadeToDocks(shadeToRemove);
        }
        shadeManager.spawned := RemoveFirst(shadeManager.spawned, shadeToRemove);
      }
    }

    /** The listener of the `i`-th menu button: the menu offers exactly
        the three afterlife names, so the recorded choice is always one of
        them. */
    method ChooseMenuOption(i: nat)
      requires i < |AFTERLIFE_OPTIONS|
      requires shadeManager != null
      modifies shade, shadeManager, docks
      ensures shade.assignedAfterlife.Some? && shade.assignedAfterlife.value in AFTERLIFE_OPTIONS
      ensures shade.assignedAfterlife == Some(AFTERLIFE_OPTIONS[i])
      ensures shade.associatedObject == old(shade.associatedObject)
      ensures shadeManager.hired == old(shadeManager.hired)
      ensures shadeManager.spawned == RemoveFirst(old(shadeManager.spawned), shade)
      ensures shade !in old(shadeManager.spawned) ==> shadeManager.spawned == old(shadeManager.spawned)
      ensures docks != null ==>
                && docks.processed == old(docks.processed)
                && docks.queue == old(docks.queue) + (if shade in old(shadeManager.spawned) then [shade] else [])
      ensures docks != null && shade in old(shadeManager.spawned) ==>
                |shadeManager.spawned| + |docks.queue| == old(|shadeManager.spawned| + |docks.queue|)
    {
      AssignAfterlife(AFTERLIFE_OPTIONS[i]);
    }
  }
}

=== FILE: docks.dfy ===
/** `Docks`: the FIFO queue of assigned shades, drained once per day by at
    most `dailyProcessingLimit` shades, each judged and announced. */
module Buildings {
  import opened Optional
  import opened Shades

  /** The serialized default of `dailyProcessingLimit`. */
  const DEFAULT_DAILY_LIMIT: int := 5

  /** How many shades one `ProcessShades` call takes from a queue of
      `queued`: the smaller of the two, and none when the limit is not
      positive. */
  function Quota(queued: nat, limit: int): (k: nat)
    ensures k <= queued
    ensures limit > 0 ==> k == queued || k == limit
    ensures limit > 0 ==> k <= limit
    ensures limit <= 0 ==> k == 0
  {
    if limit <= 0 then 0 else if queued < limit then queued else limit
  }

  /** `ProcessShade`'s verdict: the assigned afterlife is the correct one
      (an unassigned shade is never correct). */
  predicate IsCorrect(shade: Shade)
    reads shade
  {
    shade.assignedAfterlife == Some(shade.correctAfterlife)
  }

  /** One `OnShadeProcessed` notification, with the verdict reached. */
  datatype Outcome = Outcome(shade: Shade, correct: bool)

  /** The notifications for processing `shades` in order. */
  ghost function Outcomes(shades: seq<Shade>): seq<Outcome>
    reads shades
  {
    if shades == [] then []
    else
      var last := shades[|shades| - 1];
      Outcomes(shades[..|shades| - 1]) + [Outcome(last, IsCorrect(last))]
  }

  /** Everything processed over `days` successive calls when nothing new
      is enqueued in between. */
  function Batches<T>(queue: seq<T>, limit: int, days: nat): seq<T>
    decreases days
  {
    if days == 0 then []
    else
      var k := Quota(|queue|, limit);
      queue[..k] + Batches(queue[k..], limit, days - 1)
  }

  /** How many shades `days` drains may take in total: one day's limit per
      day. */
  function Budget(limit: int, days: nat): (b: int)
    ensures limit > 0 ==> b >= 0
    decreases days
  {
    if days == 0 then 0 else limit + Budget(limit, days - 1)
  }

  lemma {:induction false} BudgetIsProduct(limit: int, days: nat)
    ensures Budget(limit, days) == days * limit
    decreases days
  {
    if days > 0 {
      BudgetIsProduct(limit, days - 1);
      assert days * limit == limit + (days - 1) * limit;
    }
  }

  /** With a limit that is not positive, no number of days has a budget. */
  lemma NoBudget(days: nat, limit: int)
    requires limit <= 0
    ensures days * limit <= 0
  {
  }

  /** With a limit that is not positive, no drain takes anything. */
  lemma {:induction false} NothingComesOut<T>(queue: seq<T>, limit: int, days: nat)
    requires limit <= 0
    ensures Batches(queue, limit, days) == []
    decreases days
  {
    if days > 0 {
      assert queue[Quota(|queue|, limit)..] == queue;
      NothingComesOut(queue, limit, days - 1);
    }
  }

  /** One drain per day, with a positive limit, takes the queue's prefix
      as long as the total budget. */
  lemma {:induction false} BatchesWithinBudget<T>(queue: seq<T>, limit: int, days: nat)
    requires limit > 0
    ensures Batches(queue, limit, days) == queue[..Quota(|queue|, Budget(limit, days))]
    decreases days
  {
    if days > 0 {
      var k := Quota(|queue|, limit);
      var rest := queue[k..];
      BatchesWithinBudget(rest, limit, days - 1);
      var j := Quota(|rest|, Budget(limit, days - 1));
      assert Batches(queue, limit, days) == queue[..k] + rest[..j];
      assert queue[..k] + rest[..j] == queue[..k + j];
    }
  }

  /** Over several days the shades come out in exactly the order they were
      enqueued, `limit` per day, until the queue is empty; with a limit
      that is not positive nothing ever comes out. */
  lemma BatchesArePrefix<T>(queue: seq<T>, limit: int, days: nat)
    ensures Batches(queue, limit, days) == queue[..Quota(|queue|, days * limit)]
  {
    if limit <= 0 {
      NothingComesOut(queue, limit, days);
      NoBudget(days, limit);
    } else {
      BatchesWithinBudget(queue, limit, days);
      BudgetIsProduct(limit, days);
    }
  }

  /** With the default limit, a queue of 7 keeps 2 after one day and none
      after two, and the first day takes the first five. */
  lemma SevenShadesTwoDays<T>(queue: seq<T>)
    requires |queue| == 7
    ensures Batches(queue, DEFAULT_DAILY_LIMIT, 1) == queue[..5]
    ensures |queue[Quota(|queue|, DEFAULT_DAILY_LIMIT)..]| == 2
    ensures Batches(queue, DEFAULT_DAILY_LIMIT, 2) == queue
  {
    BatchesArePrefix(queue, DEFAULT_DAILY_LIMIT, 1);
    BatchesArePrefix(queue, DEFAULT_DAILY_LIMIT, 2);
  }

  class Docks {
    /** `processingQueue`, head first. */
    var queue: seq<Shade>
    const dailyProcessingLimit: int
    /** Every `OnShadeProcessed` raised so far, oldest first. */
    ghost var processed: seq<Outcome>

    constructor (dailyProcessingLimit: int)
      ensures queue == [] && processed == []
      ensures this.dailyProcessingLimit == dailyProcessingLimit
    {
      queue := [];
      processed := [];
      this.dailyProcessingLimit := dailyProcessingLimit;
    }

    /** Appends a shade at the tail; a null shade is rejected. */
    method AssignShadeToDocks(shade: Shade?)
      modifies this
      ensures queue == if shade == null then old(queue) else old(queue) + [shade]
      ensures processed == old(processed)
    {
      if shade != null {
        queue := queue + [shade];
      }
    }

    /** Dequeues and processes up to `dailyProcessingLimit` shades from the
        head; the rest stay queued in order. */
    method ProcessShades() returns (processedCount: nat)
      modifies this
      ensures processedCount == Quota(|old(queue)|, dailyProcessingLimit)
      ensures queue == old(queue)[processedCount..]
      ensures processed == old(processed) + Outcomes(old(queue)[..processedCount])
    {
      processedCount := 0;
      while |queue| > 0 && processedCount < dailyProcessingLimit
        invariant processedCount <= |old(queue)|
        invariant dailyProcessingLimit > 0 ==> processedCount <= dailyProcessingLimit
        invariant dailyProcessingLimit <= 0 ==> processedCount == 0
        invariant queue == old(queue)[processedCount..]
        invariant processed == old(processed) + Outcomes(old(queue)[..processedCount])
        decreases |queue|
      {
        var shadeToProcess := queue[0];
        queue := queue[1..];
        var _ := ProcessShade(shadeToProcess);
        assert old(queue)[..processedCount + 1][..processedCount] == old(queue)[..processedCount];
        processedCount := processedCount + 1;
      }
    }

    /** Judges one shade and raises `OnShadeProcessed` for it whatever the
        verdict. */
    method ProcessShade(shade: Shade) returns (correct: bool)
      modifies this
      ensures correct == IsCorrect(shade)
      ensures processed == old(processed) + [Outcome(shade, correct)]
      ensures queue == old(queue)
    {
      correct := shade.assignedAfterlife == Some(shade.correctAfterlife);
      processed := processed + [Outcome(shade, correct)];
    }

    function GetQueueCount(): (n: nat)
      reads this
      ensures n == |queue|
    {
      |queue|
    }
  }
}

=== FILE: game_state.dfy ===
/** `GameStateManager`: the phase clock and the ledger held in fields that
    its methods update in place, the save-data snapshot and restore, and
    the notifications it raises, kept as a ghost log of events. */
module GameState {
  import opened Optional
  import opened PhaseClock
  import opened Ledger
  import opened Sequences

  /** The notifications a subscriber can observe, in the order raised.
      `GameEndTriggered` marks a call of the (empty) `TriggerGameEnd`. */
  datatype Event =
    | PhaseChanged(phase: Phase)
    | DayChanged(day: int)
    | GameEndTriggered
    | ResourceChanged(kind: ResourceType, newValue: int)
    | FlagChanged(name: string, flagValue: bool)
    | MultipleFlagsChanged(changed: map<string, bool>)

  /** `GameSaveData`: the snapshot of day, phase and the three stores. */
  datatype GameSaveData = GameSaveData(
    currentDay: int,
    currentPhase: Phase,
    resources: map<ResourceType, int>,
    relationships: map<string, int>,
    flags: map<string, bool>)

  /** The notifications of one `AdvancePhase` out of clock `c`. */
  ghost function StepEvents(c: Clock): seq<Event>
  {
    if c.phase == Evening then
      [DayChanged(c.day + 1)] + (if c.day + 1 > MAX_DAYS then [GameEndTriggered] else []) + [PhaseChanged(Dawn)]
    else
      [PhaseChanged(NextPhase(c.phase))]
  }

  /** One `ResourceChanged` per key of `res`, in the order `order`. */
  ghost function ResourceEvents(order: seq<ResourceType>, res: map<ResourceType, int>): seq<Event>
    requires forall i | 0 <= i < |order| :: order[i] in res
  {
    if order == [] then []
    else
      var k := order[|order| - 1];
      ResourceEvents(order[..|order| - 1], res) + [ResourceChanged(k, res[k])]
  }

  /** One `FlagChanged` per key of `flags`, with its value. */
  ghost function FlagEvents(order: seq<string>, flags: map<string, bool>): seq<Event>
    requires forall i | 0 <= i < |order| :: order[i] in flags
  {
    if order == [] then []
    else
      var k := order[|order| - 1];
      FlagEvents(order[..|order| - 1], flags) + [FlagChanged(k, flags[k])]
  }

  /** One `FlagChanged(k, false)` per removed key. */
  ghost function RemovalEvents(order: seq<string>): seq<Event>
  {
    if order == [] then []
    else RemovalEvents(order[..|order| - 1]) + [FlagChanged(order[|order| - 1], false)]
  }

  class GameStateManager {
    var currentPhase: Phase
    var currentDay: int
    var resources: map<ResourceType, int>
    var relationships: map<string, int>
    var flags: map<string, bool>
    /** Every notification raised so far, oldest first. */
    ghost var events: seq<Event>

    /** The clock part of the state. */
    function ClockState(): Clock
      reads this
    {
      Clock(currentPhase, currentDay)
    }

    /** `GetSaveData`: day, phase and copies of the three stores. The copy
        is a value, so later updates of the fields leave it as it is. */
    function GetSaveData(): GameSaveData
      reads this
    {
      GameSaveData(currentDay, currentPhase, resources, relationships, flags)
    }

    /** `Awake`: day 0 at Dawn, every resource at 0, every listed Olympian
        at 0, no flags. */
    constructor ()
      ensures ClockState() == Clock(Dawn, 0)
      ensures resources == InitialResources() && NonNegative(resources)
      ensures relationships == InitialRelationships()
      ensures flags == map[] && events == []
    {
      currentPhase := Dawn;
      currentDay := 0;
      var res: map<ResourceType, int> := map[];
      var i := 0;
      while i < |ALL_RESOURCES|
        invariant 0 <= i <= |ALL_RESOURCES|
        invariant res == map k | k in ALL_RESOURCES[..i] :: 0
      {
        assert ALL_RESOURCES[..i + 1] == ALL_RESOURCES[..i] + [ALL_RESOURCES[i]];
        res := res[ALL_RESOURCES[i] := 0];
        i := i + 1;
      }
      assert ALL_RESOURCES[..i] == ALL_RESOURCES;
      resources := res;
      var rel: map<string, int> := map[];
      var j := 0;
      while j < |OLYMPIANS|
        invariant 0 <= j <= |OLYMPIANS|
        invariant rel == map o | o in OLYMPIANS[..j] :: 0
      {
        assert OLYMPIANS[..j + 1] == OLYMPIANS[..j] + [OLYMPIANS[j]];
        rel := rel[OLYMPIANS[j] := 0];
        j := j + 1;
      }
      assert OLYMPIANS[..j] == OLYMPIANS;
      relationships := rel;
      flags := map[];
      events := [];
    }

    // ----- Phase management -----

    /** Dawn to Day, Day to Evening, and Evening to Dawn of the next day. */
    method AdvancePhase()
      modifies this
      ensures ClockState() == Step(old(ClockState()))
      ensures GetSaveData() == old(GetSaveData()).(currentPhase := currentPhase, currentDay := currentDay)
      ensures events == old(events) + StepEvents(old(ClockState()))
      ensures GameEndTriggered in events[|old(events)|..] <==> EndsGame(old(ClockState()))
    {
      match currentPhase
      case Dawn =>
        SetPhase(Day);
      case Day =>
        SetPhase(Evening);
      case Evening =>
        AdvanceDay();
        SetPhase(Dawn);
    }

    method SetPhase(newPhase: Phase)
      modifies this
      ensures GetSaveData() == old(GetSaveData()).(currentPhase := newPhase)
      ensures events == old(events) + [PhaseChanged(newPhase)]
    {
      currentPhase := newPhase;
      events := events + [PhaseChanged(newPhase)];
    }

    /** Moves to the next day, and runs the game-end branch when that day
        is past `MAX_DAYS`, on every such day. */
    method AdvanceDay()
      modifies this
      ensures GetSaveData() == old(GetSaveData()).(currentDay := old(currentDay) + 1)
      ensures events == old(events) + [DayChanged(currentDay)]
                        + (if currentDay > MAX_DAYS then [GameEndTriggered] else [])
    {
      currentDay := currentDay + 1;
      events := events + [DayChanged(currentDay)];
      if currentDay > MAX_DAYS {
        events := events + [GameEndTriggered];
      }
    }

    // ----- Resources -----

    function GetResource(kind: ResourceType): (v: int)
      reads this
      requires kind in resources
      ensures NonNegative(resources) ==> v >= 0
    {
      resources[kind]
    }

    /** Refuses an expense that would overdraw, changing nothing and
        raising nothing; otherwise adds `amount` and raises
        `ResourceChanged` with the new value. */
    method ModifyResource(kind: ResourceType, amount: int) returns (ok: bool)
      requires kind in resources
      modifies this
      ensures ok <==> TryModify(old(resources), kind, amount).Some?
      ensures resources == if ok then TryModify(old(resources), kind, amount).value else old(resources)
      ensures GetSaveData() == old(GetSaveData()).(resources := resources)
      ensures events == old(events) + (if ok then [ResourceChanged(kind, resources[kind])] else [])
      ensures old(NonNegative(resources)) ==> NonNegative(resources)
    {
      if amount < 0 && resources[kind] + amount < 0 {
        return false;
      }
      resources := resources[kind := resources[kind] + amount];
      events := events + [ResourceChanged(kind, resources[kind])];
      ok := true;
    }

    // ----- Relationships -----

    function GetRelationship(name: string): int
      reads this
    {
      Relationship(relationships, name)
    }

    /** Adds `amount` to a known Olympian; silently ignores an unknown
        name; raises no notification either way. */
    method ModifyRelationship(name: string, amount: int)
      modifies this
      ensures GetSaveData() == old(GetSaveData()).(relationships := AdjustRelationship(old(relationships), name, amount))
      ensures events == old(events)
    {
      if name in relationships {
        relationships := relationships[name := relationships[name] + amount];
      }
    }

    // ----- Flags -----

    function GetFlag(name: string): bool
      reads this
    {
      FlagValue(flags, name)
    }

    function HasFlag(name: string): bool
      reads this
    {
      name in flags
    }

    method SetFlag(name: string, value: bool)
      modifies this
      ensures flags == old(flags)[name := value]
      ensures GetFlag(name) == value && HasFlag(name)
      ensures GetSaveData() == old(GetSaveData()).(flags := flags)
      ensures events == old(events) + [FlagChanged(name, value)]
    {
      flags := flags[name := value];
      events := events + [FlagChanged(name, value)];
    }

    /** Removes the key; a notification is raised only if it was there. */
    method RemoveFlag(name: string)
      modifies this
      ensures flags == old(flags) - {name}
      ensures !HasFlag(name) && !GetFlag(name)
      ensures GetSaveData() == old(GetSaveData()).(flags := flags)
      ensures events == old(events) + (if name in old(flags) then [FlagChanged(name, false)] else [])
    {
      if name in flags {
        flags := flags - {name};
        events := events + [FlagChanged(name, false)];
      }
    }

    /** Overwrites exactly the given keys, then raises one batch
        notification (not one per key). */
    method SetFlags(flagsToSet: map<string, bool>)
      modifies this
      ensures flags == old(flags) + flagsToSet
      ensures GetSaveData() == old(GetSaveData()).(flags := flags)
      ensures events == old(events) + [MultipleFlagsChanged(flagsToSet)]
    {
      var pending := flagsToSet.Keys;
      while pending != {}
        invariant pending <= flagsToSet.Keys
        invariant flags == old(flags) + map k | k in flagsToSet && k !in pending :: flagsToSet[k]
        invariant GetSaveData() == old(GetSaveData()).(flags := flags)
        invariant events == old(events)
        decreases pending
      {
        var k :| k in pending;
        flags := flags[k := flagsToSet[k]];
        pending := pending - {k};
      }
      assert (map k | k in flagsToSet && k !in pending :: flagsToSet[k]) == flagsToSet;
      events := events + [MultipleFlagsChanged(flagsToSet)];
    }

    function GetFlagsWithPrefix(prefix: string): map<string, bool>
      reads this
    {
      WithPrefix(flags, prefix)
    }

    function AreAllFlagsSet(flagNames: seq<string>): bool
      reads this
    {
      AllSet(flags, flagNames)
    }

    function IsAnyFlagSet(flagNames: seq<string>): bool
      reads this
    {
      AnySet(flags, flagNames)
    }

    /** Removes every key that starts with `prefix` through `RemoveFlag`,
        so each removed key raises its own `FlagChanged(key, false)`. */
    method RemoveAllFlagsWithPrefix(prefix: string)
      modifies this
      ensures flags == WithoutPrefix(old(flags), prefix)
      ensures GetSaveData() == old(GetSaveData()).(flags := flags)
      ensures exists order :: Enumerates(order, WithPrefix(old(flags), prefix).Keys)
                              && events == old(events) + RemovalEvents(order)
    {
      var flagsToRemove := set k | k in flags && StartsWith(k, prefix);
      assert flagsToRemove == WithPrefix(old(flags), prefix).Keys;
      ghost var order := RemoveFlags(flagsToRemove);
      assert flags == WithoutPrefix(old(flags), prefix);
    }

    /** The removal loop of `RemoveAllFlagsWithPrefix`: `RemoveFlag` on
        each of `keys`, all present, in some enumeration order. */
    method RemoveFlags(keys: set<string>) returns (ghost order: seq<string>)
      requires keys <= flags.Keys
      modifies this
      ensures flags == old(flags) - keys
      ensures GetSaveData() == old(GetSaveData()).(flags := flags)
      ensures Enumerates(order, keys)
      ensures events == old(events) + RemovalEvents(order)
    {
      var pending := keys;
      order := [];
      while pending != {}
        invariant pending <= keys
        invariant forall i | 0 <= i < |order| :: order[i] in keys && order[i] !in pending
        invariant forall k | k in keys :: k in pending || k in order
        invariant |order| + |pending| == |keys|
        invariant flags == old(flags) - (keys - pending)
        invariant GetSaveData() == old(GetSaveData()).(flags := flags)
        invariant events == old(events) + RemovalEvents(order)
        decreases pending
      {
        var k :| k in pending;
        RemoveFlag(k);
        assert (order + [k])[..|order|] == order;
        order := order + [k];
        pending := pending - {k};
      }
    }

    // ----- Save / load -----

    /** Installs the snapshot wholesale (it may hold negative resources,
        missing resource kinds or unknown names), then raises one day, one
        phase, one resource notification per stored resource and one flag
        notification per stored flag; relationships are restored silently. */
    method LoadSaveData(saveData: GameSaveData)
      modifies this
      ensures GetSaveData() == saveData
      ensures exists ro, fo ::
                && Enumerates(ro, saveData.resources.Keys)
                && Enumerates(fo, saveData.flags.Keys)
                && events == old(events) + [DayChanged(saveData.currentDay), PhaseChanged(saveData.currentPhase)]
                             + ResourceEvents(ro, saveData.resources) + FlagEvents(fo, saveData.flags)
    {
      currentDay := saveData.currentDay;
      currentPhase := saveData.currentPhase;
      resources := saveData.resources;
      relationships := saveData.relationships;
      flags := saveData.flags;
      events := events + [DayChanged(currentDay), PhaseChanged(currentPhase)];
      ghost var ro := NotifyResources();
      ghost var fo := NotifyFlags();
    }

    /** The `foreach` over the restored resources in `LoadSaveData`. */
    method NotifyResources() returns (ghost order: seq<ResourceType>)
      modifies this
      ensures GetSaveData() == old(GetSaveData())
      ensures Enumerates(order, resources.Keys)
      ensures events == old(events) + ResourceEvents(order, resources)
    {
      var pending := resources.Keys;
      order := [];
      while pending != {}
        invariant pending <= resources.Keys
        invariant forall i | 0 <= i < |order| :: order[i] in resources && order[i] !in pending
        invariant forall k | k in resources :: k in pending || k in order
        invariant |order| + |pending| == |resources.Keys|
        invariant GetSaveData() == old(GetSaveData())
        invariant events == old(events) + ResourceEvents(order, resources)
        decreases pending
      {
        var k :| k in pending;
        events := events + [ResourceChanged(k, resources[k])];
        assert (order + [k])[..|order|] == order;
        order := order + [k];
        pending := pending - {k};
      }
    }

    /** The `foreach` over the restored flags in `LoadSaveData`. */
    method NotifyFlags() returns (ghost order: seq<string>)
      modifies this
      ensures GetSaveData() == old(GetSaveData())
      ensures Enumerates(order, flags.Keys)
      ensures events == old(events) + FlagEvents(order, flags)
    {
      var pending := flags.Keys;
      order := [];
      while pending != {}
        invariant pending <= flags.Keys
        invariant forall i | 0 <= i < |order| :: order[i] in flags && order[i] !in pending
        invariant forall k | k in flags :: k in pending || k in order
        invariant |order| + |pending| == |flags.Keys|
        invariant GetSaveData() == old(GetSaveData())
        invariant events == old(events) + FlagEvents(order, flags)
        decreases pending
      {
        var k :| k in pending;
        events := events + [FlagChanged(k, flags[k])];
        assert (order + [k])[..|order|] == order;
        order := order + [k];
        pending := pending - {k};
      }
    }
  }

  /** A snapshot taken by `GetSaveData` is a value: updating the manager
      afterwards does not reach it, and loading it back restores the
      state it recorded. */
  method SnapshotIsolation() returns (snapshot: GameSaveData, later: GameSaveData, restored: GameSaveData)
    ensures Obols in snapshot.resources && snapshot.resources[Obols] == 0
    ensures Obols in later.resources && later.resources[Obols] == 10
    ensures snapshot.flags == map[] && later.flags == map["a" := true]
    ensures restored == snapshot
  {
    var manager := new GameStateManager();
    snapshot := manager.GetSaveData();
    var ok := manager.ModifyResource(Obols, 10);
    manager.SetFlag("a", true);
    later := manager.GetSaveData();
    manager.LoadSaveData(snapshot);
    restored := manager.GetSaveData();
  }
}

=== FILE: ledger.dfy ===
/** The key-value stores of `GameStateManager` as values: resources with a
    no-overdraft rule, the Olympian relationship table and the string to
    bool flag store with its prefix and batch queries. The class in
    `GameState` keeps these maps in fields and is specified by these
    functions. */
module Ledger {
  import opened Optional

  // ----- Resources -----

  datatype ResourceType =
    | Obols
    | Herbs
    | Gemstones
    | EntertainmentSporting
    | EntertainmentCreativity
    | EntertainmentIntellectual

  /** `Enum.GetValues(typeof(ResourceType))`, in declaration order. */
  const ALL_RESOURCES: seq<ResourceType> :=
    [Obols, Herbs, Gemstones, EntertainmentSporting, EntertainmentCreativity, EntertainmentIntellectual]

  lemma AllResourcesListed(k: ResourceType)
    ensures k in ALL_RESOURCES
  {
  }

  /** No resource is below zero. */
  predicate NonNegative(res: map<ResourceType, int>)
  {
    forall k | k in res :: res[k] >= 0
  }

  /** `ModifyResource`: `None` when an expense would overdraw (the store is
      then left as it was), otherwise the store with `amount` added to `k`
      and nothing else changed. */
  function TryModify(res: map<ResourceType, int>, k: ResourceType, amount: int): (r: Option<map<ResourceType, int>>)
    requires k in res
    ensures r.None? <==> amount < 0 && res[k] + amount < 0
    ensures r.Some? ==> r.value.Keys == res.Keys && r.value[k] == res[k] + amount
    ensures r.Some? ==> forall j | j in res && j != k :: r.value[j] == res[j]
    ensures r.Some? && NonNegative(res) ==> NonNegative(r.value)
  {
    if amount < 0 && res[k] + amount < 0 then None else Some(res[k := res[k] + amount])
  }

  /** A run of `ModifyResource` calls; rejected ones change nothing. */
  function ApplyAll(res: map<ResourceType, int>, ops: seq<(ResourceType, int)>): map<ResourceType, int>
    requires forall i | 0 <= i < |ops| :: ops[i].0 in res
    decreases |ops|
  {
    if ops == [] then res
    else
      var next := match TryModify(res, ops[0].0, ops[0].1)
                  case None => res
                  case Some(m) => m;
      ApplyAll(next, ops[1..])
  }

  /** Whatever the run of deltas, no resource is ever driven below zero,
      and no resource kind appears or disappears. */
  lemma {:induction false} ApplyAllNonNegative(res: map<ResourceType, int>, ops: seq<(ResourceType, int)>)
    requires NonNegative(res)
    requires forall i | 0 <= i < |ops| :: ops[i].0 in res
    ensures NonNegative(ApplyAll(res, ops))
    ensures ApplyAll(res, ops).Keys == res.Keys
    decreases |ops|
  {
    if ops != [] {
      var next := match TryModify(res, ops[0].0, ops[0].1)
                  case None => res
                  case Some(m) => m;
      assert next.Keys == res.Keys;
      ApplyAllNonNegative(next, ops[1..]);
    }
  }

  /** The initial store: every resource at 0. */
  function InitialResources(): (m: map<ResourceType, int>)
    ensures forall k :: k in m && m[k] == 0
    ensures NonNegative(m)
  {
    var m := map k | k in ALL_RESOURCES :: 0;
    assert forall k :: k in m by {
      forall k: ResourceType ensures k in m {
        AllResourcesListed(k);
      }
    }
    m
  }

  /** From the initial store: spending 5 Obols is refused, earning 10
      succeeds, and then spending 5 leaves 5. */
  lemma ObolsScenario()
    ensures TryModify(InitialResources(), Obols, -5).None?
    ensures TryModify(InitialResources(), Obols, 10).Some?
    ensures TryModify(InitialResources(), Obols, 10).value[Obols] == 10
    ensures TryModify(TryModify(InitialResources(), Obols, 10).value, Obols, -5).Some?
    ensures TryModify(TryModify(InitialResources(), Obols, 10).value, Obols, -5).value[Obols] == 5
  {
  }

  // ----- Olympian relationships -----

  /** The cast whose relationships are tracked. */
  const OLYMPIANS: seq<string> := [
    "Artemis", "Dionysus", "Hermes", "Athena", "Hephaestus",
    "Ares", "Demeter", "Aphrodite", "Apollo", "Hera",
    "Hades", "Poseidon", "Zeus"
  ]

  /** Every listed Olympian at 0, and nobody else. */
  function InitialRelationships(): (m: map<string, int>)
    ensures forall o :: o in m <==> o in OLYMPIANS
    ensures forall o | o in m :: m[o] == 0
  {
    map o | o in OLYMPIANS :: 0
  }

  /** `GetRelationship`: an unknown name reads as 0. */
  function Relationship(rel: map<string, int>, name: string): (v: int)
    ensures name !in rel ==> v == 0
    ensures name in rel ==> v == rel[name]
  {
    if name in rel then rel[name] else 0
  }

  /** `ModifyRelationship`: adds `amount` to a known name; an unknown name
      is ignored, so the set of names never grows. */
  function AdjustRelationship(rel: map<string, int>, name: string, amount: int): (r: map<string, int>)
    ensures r.Keys == rel.Keys
    ensures Relationship(r, name) == Relationship(rel, name) + (if name in rel then amount else 0)
    ensures forall o | o in rel && o != name :: r[o] == rel[o]
  {
    if name in rel then rel[name := rel[name] + amount] else rel
  }

  // ----- Flags -----

  /** `GetFlag`: a missing flag reads as false. */
  function FlagValue(flags: map<string, bool>, name: string): (b: bool)
    ensures b ==> name in flags
    ensures name in flags ==> b == flags[name]
  {
    name in flags && flags[name]
  }

  /** `String.StartsWith`, compared character by character. */
  predicate StartsWith(s: string, prefix: string)
  {
    |prefix| <= |s| && s[..|prefix|] == prefix
  }

  /** `GetFlagsWithPrefix`: exactly the stored entries whose key starts
      with `prefix`, with their values. */
  function WithPrefix(flags: map<string, bool>, prefix: string): (r: map<string, bool>)
    ensures forall k :: k in r <==> k in flags && StartsWith(k, prefix)
    ensures forall k | k in r :: r[k] == flags[k]
  {
    map k | k in flags && StartsWith(k, prefix) :: flags[k]
  }

  /** What `RemoveAllFlagsWithPrefix` leaves: the entries whose key does
      not start with `prefix`, untouched. */
  function WithoutPrefix(flags: map<string, bool>, prefix: string): (r: map<string, bool>)
    ensures forall k :: k in r <==> k in flags && !StartsWith(k, prefix)
    ensures forall k | k in r :: r[k] == flags[k]
  {
    map k | k in flags && !StartsWith(k, prefix) :: flags[k]
  }

  /** The two halves split the store: nothing is lost or invented. */
  lemma PrefixSplit(flags: map<string, bool>, prefix: string)
    ensures WithPrefix(flags, prefix) + WithoutPrefix(flags, prefix) == flags
    ensures WithPrefix(flags, prefix).Keys !! WithoutPrefix(flags, prefix).Keys
  {
    assert WithPrefix(flags, prefix) + WithoutPrefix(flags, prefix) == flags;
  }

  /** `AreAllFlagsSet`: every named flag reads true. */
  function AllSet(flags: map<string, bool>, names: seq<string>): (b: bool)
    ensures b <==> forall i | 0 <= i < |names| :: FlagValue(flags, names[i])
  {
    if names == [] then true
    else FlagValue(flags, names[0]) && AllSet(flags, names[1..])
  }

  /** `IsAnyFlagSet`: some named flag reads true. */
  function AnySet(flags: map<string, bool>, names: seq<string>): (b: bool)
    ensures b <==> exists i | 0 <= i < |names| :: FlagValue(flags, names[i])
  {
    if names == [] then false
    else FlagValue(flags, names[0]) || AnySet(flags, names[1..])
  }

  /** Setting {"a": true, "b": false} on an empty store and asking for the
      prefix "a" yields exactly {"a": true}. */
  lemma BatchThenPrefixExample()
    ensures WithPrefix(map[] + map["a" := true, "b" := false], "a") == map["a" := true]
  {
    var f := map[] + map["a" := true, "b" := false];
    assert "b"[..1] == "b" != "a";
    assert StartsWith("a", "a");
    assert WithPrefix(f, "a").Keys == {"a"};
  }
}

=== FILE: optional.dfy ===
/** The C# code uses `null` for "no value" (an unassigned afterlife, a shade
    with no game object, a missing spawner). `Option` stands for those. */
module Optional {
  datatype Option<+T> = None | Some(value: T)
}

=== FILE: phase_clock.dfy ===
/** The day/phase clock of `GameStateManager`: a day is Dawn, Day, Evening;
    the day counter moves only when Evening rolls over into Dawn, and the
    game-end branch is taken on that roll-over whenever the new day is past
    `MAX_DAYS`. */
module PhaseClock {

  datatype Phase = Dawn | Day | Evening

  /** Length of the game in days. */
  const MAX_DAYS: int := 30

  /** The part of the game state the clock owns. */
  datatype Clock = Clock(phase: Phase, day: int)

  /** The phase `AdvancePhase` moves to. */
  function NextPhase(p: Phase): Phase
  {
    match p
    case Dawn => Day
    case Day => Evening
    case Evening => Dawn
  }

  /** One call of `AdvancePhase`. */
  function Step(c: Clock): (r: Clock)
    ensures r.phase == NextPhase(c.phase)
    ensures r.day == if c.phase == Evening then c.day + 1 else c.day
  {
    if c.phase == Evening then Clock(Dawn, c.day + 1) else Clock(NextPhase(c.phase), c.day)
  }

  /** Whether the step out of `c` runs `TriggerGameEnd`. */
  predicate EndsGame(c: Clock)
  {
    c.phase == Evening && c.day + 1 > MAX_DAYS
  }

  /** `n` consecutive calls of `AdvancePhase`. */
  function Run(c: Clock, n: nat): Clock
    decreases n
  {
    if n == 0 then c else Run(Step(c), n - 1)
  }

  /** How many of `n` consecutive calls run the game-end branch. */
  function EndSignals(c: Clock, n: nat): nat
    decreases n
  {
    if n == 0 then 0 else (if EndsGame(c) then 1 else 0) + EndSignals(Step(c), n - 1)
  }

  /** Three calls come back to the starting phase, one day later. */
  lemma ThreeStepsAdvanceOneDay(c: Clock)
    ensures Run(c, 3) == Clock(c.phase, c.day + 1)
    ensures Step(c) != c && Run(c, 2) != c
  {
    var c1 := Step(c);
    var c2 := Step(c1);
    assert Run(c, 2) == Run(c1, 1) == Run(c2, 0) == c2;
    assert Run(c, 3) == Run(c1, 2) == Run(c2, 1) == Step(c2);
  }

  /** Days `d + 1 .. d + k` that lie beyond `MAX_DAYS`. */
  function DaysPastEnd(d: int, k: nat): nat
  {
    if d + k <= MAX_DAYS then 0 else if d >= MAX_DAYS then k else d + k - MAX_DAYS
  }

  /** `k` full days from Dawn of day `d`: the clock is at Dawn of day
      `d + k`, and the game-end branch ran once for every new day past
      `MAX_DAYS`, not only for the first. */
  lemma {:induction false} FullDays(d: int, k: nat)
    ensures Run(Clock(Dawn, d), 3 * k) == Clock(Dawn, d + k)
    ensures EndSignals(Clock(Dawn, d), 3 * k) == DaysPastEnd(d, k)
    decreases k
  {
    if k > 0 {
      var c := Clock(Dawn, d);
      var c1, c2 := Clock(Day, d), Clock(Evening, d);
      var n := 3 * (k - 1);
      FullDays(d + 1, k - 1);
      assert 3 * k == n + 3;
      assert Step(c) == c1 && Step(c1) == c2 && Step(c2) == Clock(Dawn, d + 1);
      assert Run(c, n + 3) == Run(c1, n + 2) == Run(c2, n + 1) == Run(Clock(Dawn, d + 1), n);
      assert !EndsGame(c) && !EndsGame(c1);
      assert EndSignals(c, n + 3) == EndSignals(c1, n + 2) == EndSignals(c2, n + 1);
      assert EndSignals(c2, n + 1) == (if EndsGame(c2) then 1 else 0) + EndSignals(Clock(Dawn, d + 1), n);
    }
  }

  /** From a new game (day 0, Dawn): 90 calls never end the game, the 93rd
      call is the first that does, and later roll-overs do so again. */
  lemma NewGameEnding()
    ensures EndSignals(Clock(Dawn, 0), 90) == 0
    ensures EndSignals(Clock(Dawn, 0), 92) == 0
    ensures EndSignals(Clock(Dawn, 0), 93) == 1
    ensures Run(Clock(Dawn, 0), 92) == Clock(Evening, 30) && EndsGame(Clock(Evening, 30))
    ensures EndSignals(Clock(Dawn, 0), 96) == 2
  {
    FullDays(0, 30);
    FullDays(0, 31);
    FullDays(0, 32);
    var c := Clock(Dawn, 30);
    assert Run(Clock(Dawn, 0), 92) == Run(c, 2) by { RunSplit(Clock(Dawn, 0), 90, 2); }
    SignalsSplit(Clock(Dawn, 0), 90, 2);
  }

  /** Running `m + n` steps is running `m` steps and then `n`. */
  lemma {:induction false} RunSplit(c: Clock, m: nat, n: nat)
    ensures Run(c, m + n) == Run(Run(c, m), n)
    decreases m
  {
    if m > 0 {
      RunSplit(Step(c), m - 1, n);
    }
  }

  /** The game-end signals of `m + n` steps are those of the first `m`
      plus those of the `n` steps that follow. */
  lemma {:induction false} SignalsSplit(c: Clock, m: nat, n: nat)
    ensures EndSignals(c, m + n) == EndSignals(c, m) + EndSignals(Run(c, m), n)
    decreases m
  {
    if m > 0 {
      SignalsSplit(Step(c), m - 1, n);
    }
  }
}

=== FILE: sequences.dfy ===
/** List operations the shade pools rely on, stated once for any element
    type. Equality on class types is reference equality, which is what
    `List<Shade>.Remove`, `Contains` and `Find(s => s == shade)` use. */
module Sequences {

  /** Index of the first occurrence of `x` in `s`. */
  function IndexOf<T(==)>(s: seq<T>, x: T): (i: nat)
    requires x in s
    ensures i < |s| && s[i] == x && x !in s[..i]
  {
    if s[0] == x then 0 else 1 + IndexOf(s[1..], x)
  }

  /** `List<T>.Remove(x)`: drops the first occurrence of `x`, if any. */
  function RemoveFirst<T(==)>(s: seq<T>, x: T): (r: seq<T>)
    ensures x !in s ==> r == s
    ensures |r| == if x in s then |s| - 1 else |s|
  {
    if s == [] then []
    else if s[0] == x then
      assert s == [x] + s[1..];
      s[1..]
    else
      assert s == [s[0]] + s[1..];
      [s[0]] + RemoveFirst(s[1..], x)
  }

  /** The occurrence removed is the first one: everything before it and
      everything after it is kept, in order. */
  lemma {:induction false} RemoveFirstIndex<T>(s: seq<T>, x: T)
    requires x in s
    ensures RemoveFirst(s, x) == s[..IndexOf(s, x)] + s[IndexOf(s, x) + 1..]
  {
    if s[0] == x {
      assert s[..0] == [];
    } else {
      var t := s[1..];
      var i := IndexOf(t, x);
      RemoveFirstIndex(t, x);
      assert IndexOf(s, x) == i + 1;
      assert RemoveFirst(s, x) == [s[0]] + (t[..i] + t[i + 1..]);
      assert s[..i + 1] == [s[0]] + t[..i];
      assert s[i + 2..] == t[i + 1..];
    }
  }

  /** Removing the element found at index `i` by value removes exactly that
      index when no earlier element is the same. */
  lemma RemoveFirstAt<T>(s: seq<T>, i: nat)
    requires i < |s|
    requires forall j :: 0 <= j < i ==> s[j] != s[i]
    ensures RemoveFirst(s, s[i]) == s[..i] + s[i + 1..]
  {
    RemoveFirstIndex(s, s[i]);
  }

  /** The elements of `s` that are in `h`, in order. */
  function OnlyIn<T(==)>(s: seq<T>, h: seq<T>): (r: seq<T>)
    ensures forall x | x in r :: x in s && x in h
    ensures forall x | x in s && x in h :: x in r
  {
    if s == [] then []
    else
      assert s == [s[0]] + s[1..];
      (if s[0] in h then [s[0]] else []) + OnlyIn(s[1..], h)
  }

  /** The elements of `s` that are not in `h`, in order. */
  function NotIn<T(==)>(s: seq<T>, h: seq<T>): (r: seq<T>)
    ensures forall x | x in r :: x in s && x !in h
    ensures forall x | x in s && x !in h :: x in r
  {
    if s == [] then []
    else
      assert s == [s[0]] + s[1..];
      (if s[0] in h then [] else [s[0]]) + NotIn(s[1..], h)
  }

  /** Building the "not in `h`" list one element at a time. */
  lemma {:induction false} NotInSnoc<T>(s: seq<T>, h: seq<T>, x: T)
    ensures NotIn(s + [x], h) == NotIn(s, h) + (if x in h then [] else [x])
  {
    if s == [] {
      assert [x][1..] == [];
    } else {
      assert (s + [x])[1..] == s[1..] + [x];
      NotInSnoc(s[1..], h, x);
    }
  }

  /** `foreach (x in t) s.Remove(x)`. */
  function RemoveEach<T(==)>(s: seq<T>, t: seq<T>): (r: seq<T>)
    decreases |t|
  {
    if t == [] then s else RemoveEach(RemoveFirst(s, t[0]), t[1..])
  }

  /** One more removal at the end of the loop. */
  lemma {:induction false} RemoveEachSnoc<T>(s: seq<T>, t: seq<T>, y: T)
    ensures RemoveEach(s, t + [y]) == RemoveFirst(RemoveEach(s, t), y)
    decreases |t|
  {
    if t == [] {
      assert RemoveEach(s, [y]) == RemoveEach(RemoveFirst(s, y), []);
    } else {
      assert (t + [y])[1..] == t[1..] + [y];
      RemoveEachSnoc(RemoveFirst(s, t[0]), t[1..], y);
    }
  }

  /** Removals of values other than the head do not touch the head. */
  lemma {:induction false} RemoveEachKeepsHead<T>(x: T, s: seq<T>, t: seq<T>)
    requires x !in t
    ensures RemoveEach([x] + s, t) == [x] + RemoveEach(s, t)
    decreases |t|
  {
    if t != [] {
      assert t[0] != x;
      assert ([x] + s)[1..] == s;
      assert RemoveFirst([x] + s, t[0]) == [x] + RemoveFirst(s, t[0]);
      RemoveEachKeepsHead(x, RemoveFirst(s, t[0]), t[1..]);
    }
  }

  /** Removing, one first-occurrence at a time, every element of `s` that is
      not in `h` leaves exactly the elements of `s` that are in `h`, in
      their original order. */
  lemma {:induction false} RemoveNotInLeavesOnlyIn<T>(s: seq<T>, h: seq<T>)
    ensures RemoveEach(s, NotIn(s, h)) == OnlyIn(s, h)
  {
    if s != [] {
      var x, rest := s[0], s[1..];
      assert s == [x] + rest;
      RemoveNotInLeavesOnlyIn(rest, h);
      if x in h {
        assert NotIn(s, h) == NotIn(rest, h);
        assert x !in NotIn(rest, h);
        RemoveEachKeepsHead(x, rest, NotIn(rest, h));
      } else {
        assert NotIn(s, h) == [x] + NotIn(rest, h);
        assert RemoveFirst(s, x) == rest;
      }
    }
  }

  /** `Dictionary<K,int>` counting: for every key, the number of times it
      occurs in `s`. */
  function Tally<K(==)>(s: seq<K>): map<K, int>
  {
    if s == [] then map[]
    else
      var t, x := Tally(s[..|s| - 1]), s[|s| - 1];
      t[x := (if x in t then t[x] else 0) + 1]
  }

  /** The keys are exactly the elements of `s`, each mapped to its number
      of occurrences. */
  lemma {:induction false} TallyCounts<K>(s: seq<K>)
    ensures forall x | x in Tally(s) :: x in s
    ensures forall x | x in s :: x in Tally(s) && Tally(s)[x] == multiset(s)[x]
  {
    if s != [] {
      var p, x := s[..|s| - 1], s[|s| - 1];
      TallyCounts(p);
      assert s == p + [x];
      assert multiset(s) == multiset(p) + multiset{x};
    }
  }

  /** Counting one more element: its entry is created at 0 if missing and
      then incremented. */
  lemma TallyStep<K>(s: seq<K>, i: nat, m: map<K, int>)
    requires i < |s| && m == Tally(s[..i])
    ensures var z := if s[i] in m then m else m[s[i] := 0];
            Tally(s[..i + 1]) == z[s[i] := z[s[i]] + 1]
  {
    assert s[..i + 1][..i] == s[..i];
  }

  /** Sum of the values of a map. */
  ghost function SumValues<K>(m: map<K, int>): int
    decreases |m|
  {
    if m == map[] then 0
    else
      var k :| k in m;
      m[k] + SumValues(m - {k})
  }

  /** The sum does not depend on which key is taken out first. */
  lemma {:induction false} SumValuesRemove<K>(m: map<K, int>, k: K)
    requires k in m
    ensures SumValues(m) == m[k] + SumValues(m - {k})
    decreases |m|
  {
    var j :| j in m && SumValues(m) == m[j] + SumValues(m - {j});
    if j != k {
      assert (m - {j}).Keys == m.Keys - {j};
      assert (m - {k}).Keys == m.Keys - {k};
      SumValuesRemove(m - {j}, k);
      SumValuesRemove(m - {k}, j);
      assert m - {j} - {k} == m - {k} - {j};
    }
  }

  /** Overwriting one entry changes the sum by the difference. */
  lemma SumValuesUpdate<K>(m: map<K, int>, x: K, v: int)
    ensures SumValues(m[x := v]) == v + SumValues(m - {x})
  {
    var u := m[x := v];
    SumValuesRemove(u, x);
    assert u - {x} == m - {x};
  }

  /** Every occurrence counted once: the counts add up to the length. */
  lemma {:induction false} TallySum<K>(s: seq<K>)
    ensures SumValues(Tally(s)) == |s|
  {
    if s != [] {
      var p, x := s[..|s| - 1], s[|s| - 1];
      var t := Tally(p);
      TallySum(p);
      var v := (if x in t then t[x] else 0) + 1;
      assert Tally(s) == t[x := v];
      SumValuesUpdate(t, x, v);
      if x in t {
        SumValuesRemove(t, x);
      } else {
        assert t - {x} == t;
      }
    }
  }

  /** `order` lists every element of `keys` exactly once: the order in
      which a dictionary is enumerated, which the source leaves open. */
  ghost predicate Enumerates<K>(order: seq<K>, keys: set<K>)
  {
    && |order| == |keys|
    && (forall i | 0 <= i < |order| :: order[i] in keys)
    && (forall k | k in keys :: k in order)
  }
}

=== FILE: shade_manager.dfy ===
/** `ShadeManager`: the pool of spawned shades waiting for a decision and
    the list of hired shades, the moves between them, and the
    origin/occupation summary of the hired list. */
module ShadeManagement {
  import opened Optional
  import opened Sequences
  import opened Shades

  /** `Find(shade => shade.AssociatedGameObject == obj)`, as an index:
      the first shade whose game object is `obj` (`null` matches a shade
      that has none). */
  function FindByObject(shades: seq<Shade>, obj: Option<ObjectId>): (r: Option<nat>)
    reads shades
    ensures r.Some? ==> r.value < |shades| && shades[r.value].associatedObject == obj
    ensures r.Some? ==> forall j | 0 <= j < r.value :: shades[j].associatedObject != obj
    ensures r.None? ==> forall j | 0 <= j < |shades| :: shades[j].associatedObject != obj
  {
    if shades == [] then None
    else if shades[0].associatedObject == obj then Some(0)
    else
      match FindByObject(shades[1..], obj)
      case None => None
      case Some(i) => Some(i + 1)
  }

  /** The origins of `shades`, in order. */
  function Origins(shades: seq<Shade>): (r: seq<string>)
    ensures |r| == |shades|
  {
    seq(|shades|, i requires 0 <= i < |shades| => shades[i].origin)
  }

  /** The occupations of `shades`, in order. */
  function Occupations(shades: seq<Shade>): (r: seq<string>)
    ensures |r| == |shades|
  {
    seq(|shades|, i requires 0 <= i < |shades| => shades[i].occupation)
  }

  class ShadeManager {
    /** `spawnedShades`: shades waiting for the player's decision. */
    var spawned: seq<Shade>
    /** `hiredShades`. */
    var hired: seq<Shade>

    constructor ()
      ensures spawned == [] && hired == []
    {
      spawned := [];
      hired := [];
    }

    /** Moves the first spawned shade shown by `obj` to the end of the
        hired list; with no such shade, nothing changes. */
    method Hired(obj: Option<ObjectId>)
      modifies this
      ensures var found := FindByObject(old(spawned), obj);
        && (found.None? ==> spawned == old(spawned) && hired == old(hired))
        && (found.Some? ==>
              && hired == old(hired) + [old(spawned)[found.value]]
              && spawned == old(spawned)[..found.value] + old(spawned)[found.value + 1..])
      ensures |spawned| + |hired| == old(|spawned| + |hired|)
    {
      var found := FindByObject(spawned, obj);
      if found.Some? {
        var shadeToHire := spawned[found.value];
        hired := hired + [shadeToHire];
        RemoveFirstAt(spawned, found.value);
        spawned := RemoveFirst(spawned, shadeToHire);
      }
    }

    /** Drops every spawned shade that is not hired and appends the new
        batch. `spawnerBatch` is what the spawner produces, `None` when no
        spawner is assigned, in which case nothing changes. */
    method SpawnNewShades(spawnerBatch: Option<seq<Shade>>)
      modifies this
      ensures spawnerBatch.None? ==> spawned == old(spawned)
      ensures spawnerBatch.Some? ==> spawned == OnlyIn(old(spawned), old(hired)) + spawnerBatch.value
      ensures hired == old(hired)
    {
      if spawnerBatch.None? {
        return;
      }
      var shadesToRemove := CollectUnhired();
      RemoveShades(shadesToRemove);
      RemoveNotInLeavesOnlyIn(old(spawned), old(hired));
      AppendShades(spawnerBatch.value);
    }

    /** The first loop of `SpawnNewShades`: the spawned shades that are not
        hired, in pool order. */
    method CollectUnhired() returns (shadesToRemove: seq<Shade>)
      ensures shadesToRemove == NotIn(spawned, hired)
    {
      var pool, hiredNow := spawned, hired;
      shadesToRemove := [];
      var i := 0;
      while i < |pool|
        invariant 0 <= i <= |pool|
        invariant shadesToRemove == NotIn(pool[..i], hiredNow)
      {
        NotInSnoc(pool[..i], hiredNow, pool[i]);
        assert pool[..i + 1] == pool[..i] + [pool[i]];
        if pool[i] !in hiredNow {
          shadesToRemove := shadesToRemove + [pool[i]];
        }
        i := i + 1;
      }
      assert pool[..i] == pool;
    }

    /** The second loop of `SpawnNewShades`: `List.Remove` of each listed
        shade from the pool, in list order. */
    method RemoveShades(shadesToRemove: seq<Shade>)
      modifies this
      ensures spawned == RemoveEach(old(spawned), shadesToRemove)
      ensures hired == old(hired)
    {
      var j := 0;
      assert shadesToRemove[..0] == [];
      while j < |shadesToRemove|
        invariant 0 <= j <= |shadesToRemove|
        invariant hired == old(hired)
        invariant spawned == RemoveEach(old(spawned), shadesToRemove[..j])
      {
        RemoveEachSnoc(old(spawned), shadesToRemove[..j], shadesToRemove[j]);
        assert shadesToRemove[..j + 1] == shadesToRemove[..j] + [shadesToRemove[j]];
        spawned := RemoveFirst(spawned, shadesToRemove[j]);
        j := j + 1;
      }
      assert shadesToRemove[..j] == shadesToRemove;
    }

    /** The last loop of `SpawnNewShades`: the new batch is added to the
        pool one shade at a time, in batch order. */
    method AppendShades(newShades: seq<Shade>)
      modifies this
      ensures spawned == old(spawned) + newShades
      ensures hired == old(hired)
    {
      var k := 0;
      while k < |newShades|
        invariant 0 <= k <= |newShades|
        invariant hired == old(hired)
        invariant spawned == old(spawned) + newShades[..k]
      {
        assert newShades[..k + 1] == newShades[..k] + [newShades[k]];
        spawned := spawned + [newShades[k]];
        k := k + 1;
      }
      assert newShades[..k] == newShades;
    }

    /** The counting loop of `ShowHiredShades`: for each origin and each
        occupation, how many hired shades have it. */
    method SummaryCounts() returns (originCounts: map<string, int>, occupationCounts: map<string, int>)
      ensures originCounts == Tally(Origins(hired))
      ensures occupationCounts == Tally(Occupations(hired))
      ensures forall i | 0 <= i < |hired| :: hired[i].origin in originCounts && hired[i].occupation in occupationCounts
      ensures forall o | o in originCounts :: o in Origins(hired) && originCounts[o] == multiset(Origins(hired))[o]
      ensures forall o | o in occupationCounts :: o in Occupations(hired) && occupationCounts[o] == multiset(Occupations(hired))[o]
      ensures SumValues(originCounts) == |hired| && SumValues(occupationCounts) == |hired|
    {
      originCounts := map[];
      occupationCounts := map[];
      var shades := hired;
      ghost var origins, occupations := Origins(shades), Occupations(shades);
      var i := 0;
      while i < |shades|
        invariant 0 <= i <= |shades|
        invariant originCounts == Tally(origins[..i])
        invariant occupationCounts == Tally(occupations[..i])
      {
        var origin, occupation := shades[i].origin, shades[i].occupation;
        assert origins[i] == origin && occupations[i] == occupation;
        TallyStep(origins, i, originCounts);
        TallyStep(occupations, i, occupationCounts);
        if origin !in originCounts {
          originCounts := originCounts[origin := 0];
        }
        originCounts := originCounts[origin := originCounts[origin] + 1];
        if occupation !in occupationCounts {
          occupationCounts := occupationCounts[occupation := 0];
        }
        occupationCounts := occupationCounts[occupation := occupationCounts[occupation] + 1];
        i := i + 1;
      }
      assert origins[..i] == origins && occupations[..i] == occupations;
      TallyCounts(origins);
      TallyCounts(occupations);
      forall j | 0 <= j < |shades|
        ensures shades[j].origin in originCounts && shades[j].occupation in occupationCounts
      {
        assert origins[j] == shades[j].origin && occupations[j] == shades[j].occupation;
      }
      TallySum(origins);
      TallySum(occupations);
    }
  }
}

=== FILE: shades.dfy ===
/** The `Shade` entity: identity fields fixed at construction, the correct
    afterlife derived once from the two life actions, and the afterlife the
    player assigns later. Shades are compared by reference, so `Shade` is a
    class. */
module Shades {
  import opened Optional

  const ELYSIUM: string := "Elysium"
  const ASPHODEL: string := "Asphodel"
  const TARTARUS: string := "Tartarus"

  /** The three afterlives, in the order the assignment menu offers them. */
  const AFTERLIFE_OPTIONS: seq<string> := [ELYSIUM, ASPHODEL, TARTARUS]

  /** `ShadeSpawner.GoodActions`. */
  const GOOD_ACTIONS: seq<string> := [
    "Rescued a village from invaders.",
    "Discovered a cure for a deadly disease.",
    "Built a shelter for the homeless.",
    "Taught a generation of scholars.",
    "Protected endangered wildlife."
  ]

  /** `ShadeSpawner.BadActions`. */
  const BAD_ACTIONS: seq<string> := [
    "Stole from the royal treasury.",
    "Betrayed their comrades in battle.",
    "Burned down a sacred temple.",
    "Spread rumors that caused chaos.",
    "Sabotaged a critical mission."
  ]

  /** The counter the constructor builds: how many of the two actions are
      listed as good (exact string membership). */
  function GoodCount(lifeAction1: string, lifeAction2: string): (n: nat)
    ensures n <= 2
    ensures n == 0 <==> lifeAction1 !in GOOD_ACTIONS && lifeAction2 !in GOOD_ACTIONS
    ensures n == 2 <==> lifeAction1 in GOOD_ACTIONS && lifeAction2 in GOOD_ACTIONS
  {
    var afterFirst := if lifeAction1 in GOOD_ACTIONS then 1 else 0;
    if lifeAction2 in GOOD_ACTIONS then afterFirst + 1 else afterFirst
  }

  /** `CorrectAfterlife`: Elysium for two good actions, Tartarus for none,
      Asphodel for exactly one. */
  function Classify(lifeAction1: string, lifeAction2: string): (r: string)
    ensures r == ELYSIUM <==> lifeAction1 in GOOD_ACTIONS && lifeAction2 in GOOD_ACTIONS
    ensures r == TARTARUS <==> lifeAction1 !in GOOD_ACTIONS && lifeAction2 !in GOOD_ACTIONS
    ensures r == ASPHODEL <==> (lifeAction1 in GOOD_ACTIONS) != (lifeAction2 in GOOD_ACTIONS)
    ensures r in AFTERLIFE_OPTIONS
  {
    var goodActions := GoodCount(lifeAction1, lifeAction2);
    if goodActions == 2 then ELYSIUM
    else if goodActions == 0 then TARTARUS
    else ASPHODEL
  }

  /** The order of the two actions does not matter. */
  lemma ClassifySymmetric(lifeAction1: string, lifeAction2: string)
    ensures Classify(lifeAction1, lifeAction2) == Classify(lifeAction2, lifeAction1)
  {
  }

  /** No bad action is also listed as good, so a bad action always counts
      as not good. */
  lemma BadActionsAreNotGood()
    ensures forall i | 0 <= i < |BAD_ACTIONS| :: BAD_ACTIONS[i] !in GOOD_ACTIONS
  {
  }

  /** Each afterlife on the menu is the correct one for some pair of
      spawnable actions, so the menu and the classification agree. */
  lemma EveryOptionReachable()
    ensures forall name | name in AFTERLIFE_OPTIONS ::
              exists a1, a2 | a1 in GOOD_ACTIONS + BAD_ACTIONS && a2 in GOOD_ACTIONS + BAD_ACTIONS ::
                Classify(a1, a2) == name
  {
    var good, bad := GOOD_ACTIONS[0], BAD_ACTIONS[0];
    BadActionsAreNotGood();
    assert good in GOOD_ACTIONS + BAD_ACTIONS && bad in GOOD_ACTIONS + BAD_ACTIONS;
    assert Classify(good, good) == ELYSIUM;
    assert Classify(good, bad) == ASPHODEL;
    assert Classify(bad, bad) == TARTARUS;
  }

  /** A handle on the engine object that displays a shade. */
  type ObjectId = nat

  class Shade {
    const name: string
    const origin: string
    const occupation: string
    const lifeSummary: string
    const lifeAction1: string
    const lifeAction2: string
    const level: int
    /** Derived once, at construction. */
    const correctAfterlife: string
    /** `null` until the player assigns an afterlife. */
    var assignedAfterlife: Option<string>
    /** `null` until the spawner attaches a game object. */
    var associatedObject: Option<ObjectId>

    constructor (name: string, origin: string, occupation: string, lifeSummary: string,
                 lifeAction1: string, lifeAction2: string, level: int)
      ensures this.name == name && this.origin == origin && this.occupation == occupation
      ensures this.lifeSummary == lifeSummary && this.level == level
      ensures this.lifeAction1 == lifeAction1 && this.lifeAction2 == lifeAction2
      ensures correctAfterlife == Classify(lifeAction1, lifeAction2)
      ensures correctAfterlife in AFTERLIFE_OPTIONS
      ensures assignedAfterlife == None && associatedObject == None
    {
      this.name := name;
      this.origin := origin;
      this.occupation := occupation;
      this.lifeSummary := lifeSummary;
      this.lifeAction1 := lifeAction1;
      this.lifeAction2 := lifeAction2;
      this.level := level;
      correctAfterlife := Classify(lifeAction1, lifeAction2);
      assignedAfterlife := None;
      associatedObject := None;
    }
  }
}
